=== FILE: README.md ===
# Fraud-prevention controller, modelled in Dafny

NeoCheck's fraud-prevention API has one endpoint, `POST validate`. It takes a list
of purchase records. Each record carries an order id, a deal id, an email address,
a street address, a city, a state, a zip code and a credit-card number. The endpoint
answers with the records that take part in at least one suspicious pair.

- A request with fewer than two records is rejected with a bad-request response.
  So is a request with no body or no purchase list.
- Otherwise every unordered pair of records is checked, in index order, by the
  pairwise rule `AreOrdersFraudulent`.
- A pair is flagged when both records buy the same deal with different cards and
  at least one of these holds:
  - the normalised emails are equal;
  - the addresses match on street, city, state and zip code.
- To normalise an email: lower-case it, keep the text before the first `@`, delete
  every `.`, then keep the text before the first `+`.
- Streets match when they are equal ignoring case, or when they are identical after
  each `St.` has been replaced by `Street`, ignoring case.
- States match when they are equal ignoring case. The exact spelling `NY` also
  matches any casing of `New York`.
- Both records of every flagged pair are collected. Repeats are dropped. The list is
  ordered by order id, stably, and returned.

The project has four modules:

- `Text` (`text.dfy`) holds the .NET string operations the rule uses:
  - case mapping;
  - `Split(c)[0]`;
  - `Replace(".", "")`;
  - the case-insensitive `Replace`.
- `Matching` (`matching.dfy`) holds the purchase record, the pairwise rule and its
  parts.
- `Sequences` (`sequences.dfy`) holds LINQ's `Distinct` and stable `OrderBy` as
  functions, with their properties.
- `Controller` (`controller.dfy`) holds the endpoint:
  - `Validate` is a method.
  - Its nested loops are the method `ComparePairs`.
  - Both are proved against the specification functions `Scan` and `FlaggedOrders`.

`ComparePairs` takes the pairwise rule as a parameter, so its loop proofs do not
depend on the rule. `Validate` passes `AreOrdersFraudulent`. The list built by the
loops holds references into the request. The model records them as positions in the
request's list and takes `Distinct` to compare references, so it removes a record
added twice, but keeps two equal records sent at different positions.

Where the code and the controller's documentation differ, the model follows the code:

- The code's comments describe the street comparison as case-insensitive. The
  second street test compares the replaced strings with `==`, which is
  case-sensitive. So `"1 Main st."` and `"1 Main STREET"` do not match.
  `Matching.ExpandedStreetsCompareCaseSensitively` states this.
- The `NY` alias needs exactly the upper-case spelling `NY` on one side. So `"ny"`
  does not match `"New York"`. `Matching.LowerCaseNyDoesNotMatchNewYork` states
  this.
- The purchase class is not part of this model, so neither is the equality
  `Distinct()` uses. The model takes it to be reference identity: a record added
  twice is dropped once, and two equal records sent at different positions are
  both kept. If the class compares by value (a C# `record`, or an `Equals`
  override), the real endpoint would return such records once.

## Model

| member | source | states |
|---|---|---|
| Text.ToLower | NeoCheck.FraudPrevention.API/Controllers/FraudPreventionController.cs:75-76 | lower-casing keeps the length, leaves no upper-case letter and changes each character only in case |
| Text.ToUpper | NeoCheck.FraudPrevention.API/Controllers/FraudPreventionController.cs:88-89 | upper-casing keeps the length, leaves no lower-case letter and changes each character only in case |
| Text.EqualsIgnoreCase | NeoCheck.FraudPrevention.API/Controllers/FraudPreventionController.cs:81-95 | `Equals(…, OrdinalIgnoreCase)` as equality after upper-casing; its ensures say equal strings have equal length, and `EqualsIgnoreCaseCharwise` states its position-by-position meaning |
| Text.EqualsIgnoreCaseCharwise | NeoCheck.FraudPrevention.API/Controllers/FraudPreventionController.cs:81-95 | an ordinal case-insensitive comparison holds exactly when the lengths agree and every position agrees up to case |
| Text.BeforeFirst | NeoCheck.FraudPrevention.API/Controllers/FraudPreventionController.cs:75-76 | `Split(c)[0]` is a prefix of the input that does not contain `c`, and it stops at the first `c` or at the end |
| Text.BeforeFirstAbsent | NeoCheck.FraudPrevention.API/Controllers/FraudPreventionController.cs:75-76 | splitting at a character that does not occur returns the whole string |
| Text.BeforeFirstConcat | NeoCheck.FraudPrevention.API/Controllers/FraudPreventionController.cs:75-76 | splitting a concatenation cuts inside the first part exactly when the separator occurs there |
| Text.RemoveAll | NeoCheck.FraudPrevention.API/Controllers/FraudPreventionController.cs:75-76 | `Replace(".", "")` keeps exactly the characters other than the removed one and never grows the string |
| Text.RemoveAllConcat | NeoCheck.FraudPrevention.API/Controllers/FraudPreventionController.cs:75-76 | removing a character distributes over concatenation |
| Text.RemoveAllAbsent | NeoCheck.FraudPrevention.API/Controllers/FraudPreventionController.cs:75-76 | removing a character that does not occur changes nothing |
| Text.ReplaceIgnoreCase | NeoCheck.FraudPrevention.API/Controllers/FraudPreventionController.cs:82-83 | `Replace(pattern, replacement, OrdinalIgnoreCase)`: left-to-right, non-overlapping, replacement text never rescanned; `ReplaceWithoutOccurrence` and `Matching.ExpandStreetIsReplace` state its properties |
| Text.ReplaceWithoutOccurrence | NeoCheck.FraudPrevention.API/Controllers/FraudPreventionController.cs:82-83 | a case-insensitive replace whose pattern does not occur leaves the string unchanged |
| Matching.NormalizeEmail | NeoCheck.FraudPrevention.API/Controllers/FraudPreventionController.cs:75-76 | the normalised email contains no `@`, no `.`, no `+` and no upper-case letter |
| Matching.NormalizeEmailIdempotent | NeoCheck.FraudPrevention.API/Controllers/FraudPreventionController.cs:75-76 | normalising a normalised email changes nothing |
| Matching.NormalizeEmailLocalPart | NeoCheck.FraudPrevention.API/Controllers/FraudPreventionController.cs:75-76 | only the lower-cased text before the `@` reaches the normalised value |
| Matching.NormalizeEmailIgnoresDomain | NeoCheck.FraudPrevention.API/Controllers/FraudPreventionController.cs:75-78 | two addresses with the same local part and different domains normalise alike, so they match |
| Matching.NormalizeEmailIgnoresTag | NeoCheck.FraudPrevention.API/Controllers/FraudPreventionController.cs:75-78 | a `+tag` after the user name is dropped |
| Matching.NormalizeEmailIgnoresDot | NeoCheck.FraudPrevention.API/Controllers/FraudPreventionController.cs:75-78 | deleting a dot anywhere in the address leaves the normalised value unchanged |
| Matching.NormalizeEmailIgnoresCase | NeoCheck.FraudPrevention.API/Controllers/FraudPreventionController.cs:75-78 | the normalised value does not depend on letter case |
| Matching.NormalizeEmailAlias | NeoCheck.FraudPrevention.API/Controllers/FraudPreventionController.cs:75-78 | `first.last+tag@d1` and `firstlast@d2` normalise alike |
| Matching.NormalizeEmailOfNormalLocal | NeoCheck.FraudPrevention.API/Controllers/FraudPreventionController.cs:75-76 | a lower-case local part free of `@`, `.` and `+` is its own normalised value |
| Matching.AliasedEmailsNormaliseAlike | NeoCheck.FraudPrevention.API/Controllers/FraudPreventionController.cs:75-78 | `Jane.Doe+x@mail.com` and `janedoe@mail.com` both normalise to `janedoe` |
| Matching.PlainAddressNormalises | NeoCheck.FraudPrevention.API/Controllers/FraudPreventionController.cs:75-76 | `janedoe@mail.com` normalises to `janedoe` |
| Matching.ExpandStreet | NeoCheck.FraudPrevention.API/Controllers/FraudPreventionController.cs:82-83 | the `St.` to `Street` replace as a character scan; `ExpandStreetIsReplace` proves it equal to the case-insensitive replace, and `NoAbbreviationAfterExpansion`, `ExpandStreetIdempotent` and `ExpandStreetConcat` state its properties |
| Matching.StreetsMatch | NeoCheck.FraudPrevention.API/Controllers/FraudPreventionController.cs:81-83 | `addressMatch`: equal ignoring case, or identical after the replace; `StreetsMatchIsReplace`, `AbbreviatedStreetMatchesFullWord` and `ExpandedStreetsCompareCaseSensitively` state its properties |
| Matching.OccursAtAbbreviation | NeoCheck.FraudPrevention.API/Controllers/FraudPreventionController.cs:82-83 | `St.` occurs at a position, ignoring case, exactly when the scan sees an abbreviation there |
| Matching.ExpandStreetIsReplace | NeoCheck.FraudPrevention.API/Controllers/FraudPreventionController.cs:82-83 | the street expansion is the case-insensitive replace of `St.` by `Street` |
| Matching.StreetsMatchIsReplace | NeoCheck.FraudPrevention.API/Controllers/FraudPreventionController.cs:81-83 | streets match exactly when they are equal ignoring case, or when the two replaced strings are identical |
| Matching.NoAbbreviationAfterExpansion | NeoCheck.FraudPrevention.API/Controllers/FraudPreventionController.cs:82-83 | an expanded street contains `St.` nowhere, in any casing |
| Matching.ExpandStreetLeavesNoAbbreviation | NeoCheck.FraudPrevention.API/Controllers/FraudPreventionController.cs:82-83 | after the replace, the pattern no longer occurs in the result |
| Matching.ExpandStreetIdempotent | NeoCheck.FraudPrevention.API/Controllers/FraudPreventionController.cs:82-83 | replacing a second time changes nothing |
| Matching.ExpandStreetConcat | NeoCheck.FraudPrevention.API/Controllers/FraudPreventionController.cs:82-83 | the replace distributes over a concatenation when no occurrence straddles the seam |
| Matching.ExpandAbbreviation | NeoCheck.FraudPrevention.API/Controllers/FraudPreventionController.cs:82-83 | any casing of `St.` becomes `Street` |
| Matching.ExpandFullWord | NeoCheck.FraudPrevention.API/Controllers/FraudPreventionController.cs:82-83 | `Street` is left as it is |
| Matching.AbbreviatedStreetMatchesFullWord | NeoCheck.FraudPrevention.API/Controllers/FraudPreventionController.cs:81-83 | a street ending in any casing of `St.` matches the same street ending in `Street`, in both argument orders |
| Matching.ExpandedStreetsCompareCaseSensitively | NeoCheck.FraudPrevention.API/Controllers/FraudPreventionController.cs:81-83 | `…st.` does not match `…STREET`, because the replaced strings are compared case-sensitively |
| Matching.StatesMatch | NeoCheck.FraudPrevention.API/Controllers/FraudPreventionController.cs:88-93 | `stateMatch`: equal ignoring case, or exactly `NY` against an upper-cased `NEW YORK`, either way round; `StatesMatchSymmetric`, `StateAliasIsOneSided`, `NyMatchesNewYork` and `LowerCaseNyDoesNotMatchNewYork` state its properties |
| Matching.StatesMatchSymmetric | NeoCheck.FraudPrevention.API/Controllers/FraudPreventionController.cs:88-93 | the state comparison does not depend on argument order |
| Matching.StateAliasIsOneSided | NeoCheck.FraudPrevention.API/Controllers/FraudPreventionController.cs:91-93 | states that match but differ beyond case are exactly `NY` on one side and a casing of `NEW YORK` on the other |
| Matching.NyMatchesNewYork | NeoCheck.FraudPrevention.API/Controllers/FraudPreventionController.cs:88-93 | `NY` matches every casing of `New York`, on either side |
| Matching.LowerCaseNyDoesNotMatchNewYork | NeoCheck.FraudPrevention.API/Controllers/FraudPreventionController.cs:91-93 | `ny` does not match `New York`, because the alias test is case-sensitive |
| Matching.AreOrdersFraudulent | NeoCheck.FraudPrevention.API/Controllers/FraudPreventionController.cs:71-101 | the rule at lines 97-99 as written; its ensures say a flagged pair shares the deal and uses different cards, and `FraudulentSymmetric`, `NeverFraudulentWithItself` and `FraudulentPaths` state its other properties |
| Matching.FraudulentSymmetric | NeoCheck.FraudPrevention.API/Controllers/FraudPreventionController.cs:71-101 | the pairwise rule gives the same answer for both argument orders |
| Matching.FlaggedPairSharesDealNotCard | NeoCheck.FraudPrevention.API/Controllers/FraudPreventionController.cs:97-99 | a flagged pair always shares the deal and uses different cards |
| Matching.NeverFraudulentWithItself | NeoCheck.FraudPrevention.API/Controllers/FraudPreventionController.cs:97-99 | no record is flagged against itself |
| Matching.FraudulentPaths | NeoCheck.FraudPrevention.API/Controllers/FraudPreventionController.cs:97-99 | given the same deal and different cards, the email match alone and the full address match alone each flag the pair |
| Matching.EmailAliasPairFlagged | NeoCheck.FraudPrevention.API/Controllers/FraudPreventionController.cs:75-99 | `Jane.Doe+x@mail.com` and `janedoe@mail.com` on the same deal with different cards are flagged |
| Matching.AddressAliasPairFlagged | NeoCheck.FraudPrevention.API/Controllers/FraudPreventionController.cs:81-99 | `… St.` in `NY` and `… Street` in `New York`, with the same city and zip, are flagged |
| Matching.SameCardPairNotFlagged | NeoCheck.FraudPrevention.API/Controllers/FraudPreventionController.cs:97-99 | two records paid with the same card are never flagged |
| Sequences.Distinct | NeoCheck.FraudPrevention.API/Controllers/FraudPreventionController.cs:55 | `Distinct` returns a list without repeats that holds exactly the elements of its input |
| Sequences.DistinctOfDistinct | NeoCheck.FraudPrevention.API/Controllers/FraudPreventionController.cs:55 | `Distinct` leaves a list without repeats unchanged |
| Sequences.DistinctExtends | NeoCheck.FraudPrevention.API/Controllers/FraudPreventionController.cs:55 | extending the input only appends to the result, so each element keeps the place of its first occurrence |
| Sequences.SortBySorted | NeoCheck.FraudPrevention.API/Controllers/FraudPreventionController.cs:58 | `OrderBy` returns a list in ascending key order |
| Sequences.SortByPermutation | NeoCheck.FraudPrevention.API/Controllers/FraudPreventionController.cs:58 | `OrderBy` returns a permutation of its input |
| Sequences.SortByStable | NeoCheck.FraudPrevention.API/Controllers/FraudPreventionController.cs:58 | elements with equal keys keep their relative order |
| Sequences.SortByUnique | NeoCheck.FraudPrevention.API/Controllers/FraudPreventionController.cs:58 | any sorted list that keeps each key's elements in input order is the model's result, so every stable sort agrees with it |
| Sequences.SortTwo | NeoCheck.FraudPrevention.API/Controllers/FraudPreventionController.cs:58 | two elements are swapped exactly when the second has the smaller key |
| Sequences.SortBy | NeoCheck.FraudPrevention.API/Controllers/FraudPreventionController.cs:58 | `OrderBy(key)` as an insertion sort that puts each element behind earlier ones with the same key; `SortBySorted`, `SortByPermutation`, `SortByStable` and `SortByUnique` state its properties |
| Controller.TooFewPurchases | NeoCheck.FraudPrevention.API/Controllers/FraudPreventionController.cs:31 | the rejection condition at line 31: no body, no list, or fewer than two records; `Controller.Validate` answers `BadRequest` exactly when it holds, and `SinglePurchaseRejected` shows the bound |
| Controller.Scan | NeoCheck.FraudPrevention.API/Controllers/FraudPreventionController.cs:38-53 | the list the nested loops build before `Distinct()`; its ensures bound every position by the request length, and `ScanMembers` says it holds exactly the members of flagged pairs |
| Controller.FlaggedOrders | NeoCheck.FraudPrevention.API/Controllers/FraudPreventionController.cs:55-60 | `Distinct()` then `OrderBy(OrderId)` of the scanned records; `FlaggedOrdersSpec`, `NoFlaggedPairNoOrders`, `FlaggedOrdersByPartner` and `FlaggedOrdersIgnoreRequestOrder` state its properties |
| Controller.ComparePairs | NeoCheck.FraudPrevention.API/Controllers/FraudPreventionController.cs:35-53 | the nested loops append both positions of each flagged pair `i < j`, in loop order: the result is `Scan` |
| Controller.Validate | NeoCheck.FraudPrevention.API/Controllers/FraudPreventionController.cs:25-60 | a bad request exactly when the request, its list or two records are missing; otherwise `Ok` with `FlaggedOrders` of the records under `AreOrdersFraudulent` |
| Controller.RowMatchesMembers | NeoCheck.FraudPrevention.API/Controllers/FraudPreventionController.cs:40-52 | the inner loop for row `i`, run up to `j`, collects a position exactly when it is `i` or a partner `i < m < j`, and the rule flags that pair |
| Controller.PairMatchesMembers | NeoCheck.FraudPrevention.API/Controllers/FraudPreventionController.cs:38-53 | after `i` outer rounds, the list holds exactly the positions in a flagged pair whose first member is before `i` |
| Controller.ScanMembers | NeoCheck.FraudPrevention.API/Controllers/FraudPreventionController.cs:38-53 | a position is collected exactly when it is one of the two members of some flagged pair |
| Controller.FlaggedOrdersSpec | NeoCheck.FraudPrevention.API/Controllers/FraudPreventionController.cs:55-60 | the response is ordered by order id, holds exactly the records of flagged pairs, and has no repeats when the request has none |
| Controller.NoFlaggedPairNoOrders | NeoCheck.FraudPrevention.API/Controllers/FraudPreventionController.cs:38-60 | the response is empty exactly when no pair is flagged |
| Controller.FlaggedOrdersByPartner | NeoCheck.FraudPrevention.API/Controllers/FraudPreventionController.cs:38-58 | under a symmetric rule that never flags a record against itself, a record is returned exactly when the request holds it together with a record it is flagged with |
| Controller.FlaggedOrdersIgnoreRequestOrder | NeoCheck.FraudPrevention.API/Controllers/FraudPreventionController.cs:38-60 | reordering the request's records does not change which records are returned |
| Controller.SinglePurchaseRejected | NeoCheck.FraudPrevention.API/Controllers/FraudPreventionController.cs:31-32 | one record is rejected, and two records, even equal ones, are accepted |
| Controller.FlaggedPairSorted | NeoCheck.FraudPrevention.API/Controllers/FraudPreventionController.cs:38-60 | a flagged pair given in descending order-id order is returned in ascending order |
| Controller.OnlyOuterPairFlagged | NeoCheck.FraudPrevention.API/Controllers/FraudPreventionController.cs:38-60 | when of three records only the first and the third are flagged, exactly those two are returned |
| Controller.EmailAliasAroundOtherDeal | NeoCheck.FraudPrevention.API/Controllers/FraudPreventionController.cs:38-60 | the `Jane.Doe+x` / `janedoe` pair around a record on another deal yields exactly the two aliased records, in order |

## Left out

- The ASP.NET plumbing is not modelled: routing attributes, `async`, model binding and `IActionResult`. The bad-request message text is dropped too. Responses are the two-constructor datatype `Response`.
- The `try`/`catch` that logs an exception and answers with status 500 is not modelled. Nothing in the model can raise one, because the model has no null values. The logger, an injected service, is left out with it.
- Null string fields in a record are not modelled. Their effect depends on the field:
  - A null `EmailAddress`, `StreetAddress` or `State` always makes the rule throw, which sends the request down the status-500 path. The calls on them are at lines 75-76, 82-83 and 88-89.
  - A null `City` or `ZipCode` throws only when its record is the first of the pair, because `Equals` is called on it at lines 86 and 95. As the argument, a null value just makes `cityMatch` or `zipMatch` false. So a null city or zip code in the last record never throws.
  - A null `CreditCardNumber` never throws, because the string `!=` at lines 97-99 accepts null. A null card counts as different from any non-null card.
- Null elements of the purchase list are not modelled, because `seq<Purchase>` has no null. A body such as `[null, {...}]` would make the rule throw when it reads the email address, and the request would take the status-500 path.
- Case mapping covers ASCII letters only. `ToLowerInvariant`, `ToUpperInvariant` and `OrdinalIgnoreCase` also fold other Unicode letters, which the model does not.
- The purchase record type is not part of this model. Neither is its equality. `Distinct` is taken on positions in the request, which stand for the object references the list holds. A value-based `Equals` on the class is not modelled.
- `Controller.Validate` does not model LINQ's own `OrderBy` algorithm. It uses a stable insertion sort. `Sequences.SortByUnique` shows that every stable sort by the same key gives the same list.
- The declared types of the order and deal ids are not part of this model. They are modelled as unbounded integers. The controller only compares them and never computes with them, so no overflow behaviour is lost if they are fixed-width.

=== FILE: controller.dfy ===
/**
 * `FraudPreventionController.Validate`: compare every pair of purchases in the
 * request, collect both members of each pair the rule flags, drop repeats and
 * sort by order id.
 *
 * The C# list holds references to the request's purchase objects. The
 * purchase class, and so the equality `Distinct()` uses, is not part of this
 * model; the model takes that equality to be reference identity. The list
 * holds positions in the request instead: two positions are the same
 * reference exactly when they are equal, whatever the two records contain.
 */
module Controller {
  import opened Matching
  import opened Sequences

  datatype Option<T> = None | Some(value: T)

  /** The request body; `purchases` is `None` when the JSON carries no list. */
  datatype PurchaseInformationRequest = PurchaseInformationRequest(purchases: Option<seq<Purchase>>)

  /** The HTTP answer: 400 (its message text is not modelled), or 200 with the flagged orders. */
  datatype Response = BadRequest | Ok(orders: seq<Purchase>)

  /** The request is turned away before any comparison: no body, no list,
      or fewer than two purchases. */
  predicate TooFewPurchases(request: Option<PurchaseInformationRequest>) {
    request.None? || request.value.purchases.None? || |request.value.purchases.value| < 2
  }

  /** The sort key, `order => order.OrderId`. */
  function OrderIdOf(p: Purchase): int {
    p.orderId
  }

  /** A rule deciding whether two purchases form a fraudulent pair. The scan is
      stated for any such rule; `Validate` uses `AreOrdersFraudulent`. */
  type PairRule = (Purchase, Purchase) -> bool

  // ---------------------------------------------------------------------------
  // What the nested loops append
  // ---------------------------------------------------------------------------

  /** The positions the inner loop appends for row `i` over the columns `i + 1 .. j - 1`. */
  function RowMatches(ps: seq<Purchase>, flags: PairRule, i: nat, j: nat): (r: seq<nat>)
    requires j <= |ps|
    ensures forall k :: k in r ==> k < |ps|
  {
    if j <= i + 1 then []
    else RowMatches(ps, flags, i, j - 1) + (if flags(ps[i], ps[j - 1]) then [i, j - 1] else [])
  }

  /** The positions appended by the rows `0 .. i - 1`. */
  function PairMatches(ps: seq<Purchase>, flags: PairRule, i: nat): (r: seq<nat>)
    requires i <= |ps|
    ensures forall k :: k in r ==> k < |ps|
  {
    if i == 0 then [] else PairMatches(ps, flags, i - 1) + RowMatches(ps, flags, i - 1, |ps|)
  }

  /** The whole list before `Distinct()`: every row (the last one has no partner). */
  function Scan(ps: seq<Purchase>, flags: PairRule): (r: seq<nat>)
    ensures forall k :: k in r ==> k < |ps|
  {
    PairMatches(ps, flags, |ps|)
  }

  /** Position `k` belongs to some pair of distinct positions that the rule flags. */
  predicate InFlaggedPair(ps: seq<Purchase>, flags: PairRule, k: int) {
    exists i, j :: 0 <= i < j < |ps| && flags(ps[i], ps[j]) && (k == i || k == j)
  }

  /** The records at the given positions. */
  function Select(ps: seq<Purchase>, positions: seq<nat>): (r: seq<Purchase>)
    requires forall n :: 0 <= n < |positions| ==> positions[n] < |ps|
    ensures |r| == |positions|
    ensures forall n :: 0 <= n < |r| ==> r[n] == ps[positions[n]]
  {
    seq(|positions|, n requires 0 <= n < |positions| => ps[positions[n]])
  }

  /** The response body for the purchases `ps`. */
  function FlaggedOrders(ps: seq<Purchase>, flags: PairRule): seq<Purchase> {
    var positions := Distinct(Scan(ps, flags));
    assert forall n :: 0 <= n < |positions| ==> positions[n] in positions;
    SortBy(Select(ps, positions), OrderIdOf)
  }

  // ---------------------------------------------------------------------------
  // The endpoint
  // ---------------------------------------------------------------------------

  /** The nested loops of `Validate`: every pair `i < j` in request order, both
      positions appended when `flags` matches them. */
  method ComparePairs(ps: seq<Purchase>, flags: PairRule) returns (fraudulentOrders: seq<nat>)
    requires |ps| >= 2
    ensures fraudulentOrders == Scan(ps, flags)
  {
    var n := |ps|;
    fraudulentOrders := [];
    for i := 0 to n - 1
      invariant fraudulentOrders == PairMatches(ps, flags, i)
    {
      for j := i + 1 to n
        invariant fraudulentOrders == PairMatches(ps, flags, i) + RowMatches(ps, flags, i, j)
      {
        if flags(ps[i], ps[j]) {
          fraudulentOrders := fraudulentOrders + [i, j];
        }
      }
    }
    assert PairMatches(ps, flags, n) == PairMatches(ps, flags, n - 1) + RowMatches(ps, flags, n - 1, n);
  }

  /** `POST /FraudPrevention/validate`. */
  method Validate(request: Option<PurchaseInformationRequest>) returns (response: Response)
    ensures TooFewPurchases(request) <==> response == BadRequest
    ensures response.Ok? ==> response.orders == FlaggedOrders(request.value.purchases.value, AreOrdersFraudulent)
  {
    if request.None? || request.value.purchases.None? || |request.value.purchases.value| < 2 {
      return BadRequest;
    }
    var ps := request.value.purchases.value;
    var fraudulentOrders := ComparePairs(ps, AreOrdersFraudulent);
    fraudulentOrders := Distinct(fraudulentOrders);
    assert forall n :: 0 <= n < |fraudulentOrders| ==> fraudulentOrders[n] in fraudulentOrders;
    var orders := Select(ps, fraudulentOrders);
    orders := SortBy(orders, OrderIdOf);
    return Ok(orders);
  }

  // ---------------------------------------------------------------------------
  // What the response contains
  // ---------------------------------------------------------------------------

  /** Row `i` appends exactly the members of the flagged pairs `(i, m)` with `m < j`. */
  lemma {:induction false} RowMatchesMembers(ps: seq<Purchase>, flags: PairRule, i: nat, j: nat, k: int)
    requires j <= |ps|
    ensures k in RowMatches(ps, flags, i, j) <==>
      exists m :: i < m < j && flags(ps[i], ps[m]) && (k == i || k == m)
  {
    if j > i + 1 {
      RowMatchesMembers(ps, flags, i, j - 1, k);
      if flags(ps[i], ps[j - 1]) && (k == i || k == j - 1) {
        assert i < j - 1 < j;
      }
    }
  }

  /** Position `k` is one of a pair `(a, b)`, `a < b`, that the rule flags. */
  predicate InFlaggedPairFrom(ps: seq<Purchase>, flags: PairRule, a: int, k: int) {
    exists b :: 0 <= a < b < |ps| && flags(ps[a], ps[b]) && (k == a || k == b)
  }

  /** The rows `0 .. i - 1` append exactly the members of the flagged pairs starting there. */
  lemma {:induction false} PairMatchesMembers(ps: seq<Purchase>, flags: PairRule, i: nat, k: int)
    requires i <= |ps|
    ensures k in PairMatches(ps, flags, i) <==> exists a :: 0 <= a < i && InFlaggedPairFrom(ps, flags, a, k)
  {
    if i > 0 {
      PairMatchesMembers(ps, flags, i - 1, k);
      RowMatchesMembers(ps, flags, i - 1, |ps|, k);
      assert k in RowMatches(ps, flags, i - 1, |ps|) <==> InFlaggedPairFrom(ps, flags, i - 1, k);
    }
  }

  /** The scan lists a position iff it belongs to a flagged pair. */
  lemma ScanMembers(ps: seq<Purchase>, flags: PairRule, k: int)
    ensures k in Scan(ps, flags) <==> InFlaggedPair(ps, flags, k)
  {
    PairMatchesMembers(ps, flags, |ps|, k);
    if InFlaggedPair(ps, flags, k) {
      var i, j :| 0 <= i < j < |ps| && flags(ps[i], ps[j]) && (k == i || k == j);
      assert InFlaggedPairFrom(ps, flags, i, k);
    }
  }

  /** The response lists, each once and ascending by order id, the records that
      belong to a flagged pair; nothing else. Records that are pairwise
      different come out pairwise different. */
  lemma FlaggedOrdersSpec(ps: seq<Purchase>, flags: PairRule)
    ensures SortedBy(FlaggedOrders(ps, flags), OrderIdOf)
    ensures forall p :: p in FlaggedOrders(ps, flags) <==>
      exists k :: 0 <= k < |ps| && ps[k] == p && InFlaggedPair(ps, flags, k)
    ensures NoDuplicates(ps) ==> NoDuplicates(FlaggedOrders(ps, flags))
  {
    var d := Distinct(Scan(ps, flags));
    assert forall n :: 0 <= n < |d| ==> d[n] in d;
    var selected := Select(ps, d);
    SortBySorted(selected, OrderIdOf);
    SortByPermutation(selected, OrderIdOf);
    assert multiset(FlaggedOrders(ps, flags)) == multiset(selected);
    forall p ensures p in FlaggedOrders(ps, flags) <==>
      exists k :: 0 <= k < |ps| && ps[k] == p && InFlaggedPair(ps, flags, k)
    {
      assert p in FlaggedOrders(ps, flags) <==> p in multiset(selected);
      if p in selected {
        var n :| 0 <= n < |selected| && selected[n] == p;
        ScanMembers(ps, flags, d[n]);
        assert d[n] in d;
      }
      if exists k :: 0 <= k < |ps| && ps[k] == p && InFlaggedPair(ps, flags, k) {
        var k :| 0 <= k < |ps| && ps[k] == p && InFlaggedPair(ps, flags, k);
        ScanMembers(ps, flags, k);
        assert k in d;
        var n :| 0 <= n < |d| && d[n] == k;
        assert selected[n] == p;
      }
    }
    if NoDuplicates(ps) {
      assert NoDuplicates(selected) by {
        forall a, b | 0 <= a < b < |selected| ensures selected[a] != selected[b] {
          assert d[a] != d[b];
        }
      }
      NoDuplicatesPermutation(selected, FlaggedOrders(ps, flags));
    }
  }

  /** The response is empty iff no pair matches. */
  lemma NoFlaggedPairNoOrders(ps: seq<Purchase>, flags: PairRule)
    ensures FlaggedOrders(ps, flags) == [] <==>
      forall i, j :: 0 <= i < j < |ps| ==> !flags(ps[i], ps[j])
  {
    FlaggedOrdersSpec(ps, flags);
    if exists i, j :: 0 <= i < j < |ps| && flags(ps[i], ps[j]) {
      var i, j :| 0 <= i < j < |ps| && flags(ps[i], ps[j]);
      assert InFlaggedPair(ps, flags, i);
      assert ps[i] in FlaggedOrders(ps, flags);
    }
    if FlaggedOrders(ps, flags) != [] {
      assert FlaggedOrders(ps, flags)[0] in FlaggedOrders(ps, flags);
    }
  }

  /** Under a symmetric rule, a record in a flagged pair is flagged with some record of the request. */
  lemma FlaggedPairHasPartner(ps: seq<Purchase>, flags: PairRule, k: int)
    requires forall a, b :: flags(a, b) == flags(b, a)
    requires 0 <= k < |ps| && InFlaggedPair(ps, flags, k)
    ensures exists q :: q in ps && flags(ps[k], q)
  {
    var i, j :| 0 <= i < j < |ps| && flags(ps[i], ps[j]) && (k == i || k == j);
    if k == i {
      assert ps[j] in ps && flags(ps[k], ps[j]);
    } else {
      assert flags(ps[j], ps[i]) == flags(ps[i], ps[j]);
      assert ps[i] in ps && flags(ps[k], ps[i]);
    }
  }

  /** Under a symmetric rule that never flags a record against itself, a record
      flagged with another record of the request is in a flagged pair. */
  lemma PartnerMakesFlaggedPair(ps: seq<Purchase>, flags: PairRule, k: int, q: Purchase)
    requires forall a, b :: flags(a, b) == flags(b, a)
    requires forall a :: !flags(a, a)
    requires 0 <= k < |ps| && q in ps && flags(ps[k], q)
    ensures InFlaggedPair(ps, flags, k)
  {
    var m :| 0 <= m < |ps| && ps[m] == q;
    if k < m {
      assert flags(ps[k], ps[m]);
    } else {
      assert flags(ps[m], ps[k]) == flags(ps[k], q);
    }
  }

  /** Under a symmetric rule that never flags a record against itself, a record
      is returned iff the request holds it and some record it is flagged with. */
  lemma FlaggedOrdersByPartner(ps: seq<Purchase>, flags: PairRule, p: Purchase)
    requires forall a, b :: flags(a, b) == flags(b, a)
    requires forall a :: !flags(a, a)
    ensures p in FlaggedOrders(ps, flags) <==> p in ps && exists q :: q in ps && flags(p, q)
  {
    FlaggedOrdersSpec(ps, flags);
    if p in FlaggedOrders(ps, flags) {
      var k :| 0 <= k < |ps| && ps[k] == p && InFlaggedPair(ps, flags, k);
      FlaggedPairHasPartner(ps, flags, k);
    }
    if p in ps && exists q :: q in ps && flags(p, q) {
      var q :| q in ps && flags(p, q);
      var k :| 0 <= k < |ps| && ps[k] == p;
      PartnerMakesFlaggedPair(ps, flags, k, q);
    }
  }

  /** The records returned do not depend on the order in which the request lists them. */
  lemma FlaggedOrdersIgnoreRequestOrder(ps: seq<Purchase>, qs: seq<Purchase>)
    requires multiset(ps) == multiset(qs)
    ensures forall p :: p in FlaggedOrders(ps, AreOrdersFraudulent) <==> p in FlaggedOrders(qs, AreOrdersFraudulent)
  {
    forall a, b ensures AreOrdersFraudulent(a, b) == AreOrdersFraudulent(b, a) {
      FraudulentSymmetric(a, b);
    }
    forall a ensures !AreOrdersFraudulent(a, a) {
      NeverFraudulentWithItself(a);
    }
    forall p ensures p in FlaggedOrders(ps, AreOrdersFraudulent) <==> p in FlaggedOrders(qs, AreOrdersFraudulent) {
      FlaggedOrdersByPartner(ps, AreOrdersFraudulent, p);
      FlaggedOrdersByPartner(qs, AreOrdersFraudulent, p);
      assert forall x :: x in ps <==> x in qs by {
        forall x ensures x in ps <==> x in qs {
          assert x in ps <==> x in multiset(ps);
          assert x in qs <==> x in multiset(qs);
        }
      }
    }
  }

  // ---------------------------------------------------------------------------
  // Scenarios
  // ---------------------------------------------------------------------------

  /** A single purchase is turned away with 400; two are compared. */
  lemma SinglePurchaseRejected(p: Purchase)
    ensures TooFewPurchases(Some(PurchaseInformationRequest(Some([p]))))
    ensures !TooFewPurchases(Some(PurchaseInformationRequest(Some([p, p]))))
  {
  }

  /** The scan of two purchases that match. */
  lemma ScanOfMatchingPair(r1: Purchase, r2: Purchase, flags: PairRule)
    requires flags(r1, r2)
    ensures Scan([r1, r2], flags) == [0, 1]
  {
    var ps := [r1, r2];
    assert RowMatches(ps, flags, 0, 1) == [];
    assert RowMatches(ps, flags, 0, 2) == [0, 1];
    assert RowMatches(ps, flags, 1, 2) == [];
    assert PairMatches(ps, flags, 1) == [0, 1];
  }

  /** The scan of three purchases where only the first and the third match. */
  lemma ScanOfOuterPair(r1: Purchase, r2: Purchase, r3: Purchase, flags: PairRule)
    requires flags(r1, r3) && !flags(r1, r2) && !flags(r2, r3)
    ensures Scan([r1, r2, r3], flags) == [0, 2]
  {
    var ps := [r1, r2, r3];
    assert RowMatches(ps, flags, 0, 1) == [];
    assert RowMatches(ps, flags, 0, 2) == [];
    assert RowMatches(ps, flags, 0, 3) == [0, 2];
    assert RowMatches(ps, flags, 1, 2) == [];
    assert RowMatches(ps, flags, 1, 3) == [];
    assert RowMatches(ps, flags, 2, 3) == [];
    assert PairMatches(ps, flags, 1) == [0, 2];
    assert PairMatches(ps, flags, 2) == [0, 2];
  }

  /** Two different positions are already distinct. */
  lemma DistinctOfTwo(a: nat, b: nat)
    requires a != b
    ensures Distinct([a, b]) == [a, b]
  {
    assert NoDuplicates([a, b]) by {
      assert [a, b][0] != [a, b][1];
    }
    DistinctOfDistinct([a, b]);
  }

  /** A flagged pair comes back sorted by order id, whatever its order in the request. */
  lemma FlaggedPairSorted(r1: Purchase, r2: Purchase, flags: PairRule)
    requires flags(r1, r2) && r2.orderId < r1.orderId
    ensures FlaggedOrders([r1, r2], flags) == [r2, r1]
  {
    var ps := [r1, r2];
    ScanOfMatchingPair(r1, r2, flags);
    DistinctOfTwo(0, 1);
    assert Select(ps, [0, 1]) == [r1, r2];
    SortTwo(r1, r2, OrderIdOf);
  }

  /** Of three purchases where only the first and the third match, the response
      holds exactly those two, in order-id order. */
  lemma OnlyOuterPairFlagged(r1: Purchase, r2: Purchase, r3: Purchase, flags: PairRule)
    requires flags(r1, r3) && !flags(r1, r2) && !flags(r2, r3)
    requires r1.orderId <= r3.orderId
    ensures FlaggedOrders([r1, r2, r3], flags) == [r1, r3]
  {
    var ps := [r1, r2, r3];
    ScanOfOuterPair(r1, r2, r3, flags);
    DistinctOfTwo(0, 2);
    assert Select(ps, [0, 2]) == [r1, r3];
    SortTwo(r1, r3, OrderIdOf);
  }

  /** The same with the controller's rule: an email alias pair around a
      purchase of another deal. */
  lemma EmailAliasAroundOtherDeal(r1: Purchase, r2: Purchase, r3: Purchase)
    requires r1.emailAddress == "Jane.Doe+x@mail.com" && r3.emailAddress == "janedoe@mail.com"
    requires r1.dealId == r3.dealId && r1.creditCardNumber != r3.creditCardNumber
    requires r2.dealId != r1.dealId
    requires r1.orderId == 1 && r2.orderId == 2 && r3.orderId == 3
    ensures FlaggedOrders([r1, r2, r3], AreOrdersFraudulent) == [r1, r3]
  {
    EmailAliasPairFlagged(r1, r3);
    FlaggedPairSharesDealNotCard(r1, r2);
    FlaggedPairSharesDealNotCard(r2, r3);
    OnlyOuterPairFlagged(r1, r2, r3, AreOrdersFraudulent);
  }
}

=== FILE: matching.dfy ===
/**
 * The pairwise fraud rule of the fraud-prevention controller: two purchase
 * records are flagged when they buy the same deal with different cards and
 * either share a normalised email local part or share a physical address.
 */
module Matching {
  import opened Text

  /** One purchase attempt, as the request body carries it. */
  datatype Purchase = Purchase(
    orderId: int,
    dealId: int,
    emailAddress: string,
    streetAddress: string,
    city: string,
    state: string,
    zipCode: string,
    creditCardNumber: string)

  // ---------------------------------------------------------------------------
  // Email
  // ---------------------------------------------------------------------------

  /** The email normalisation: lower-case, keep the text before the first '@',
      delete every '.', keep the text before the first '+'. */
  function NormalizeEmail(email: string): (r: string)
    ensures '@' !in r && '.' !in r && '+' !in r
    ensures forall i :: 0 <= i < |r| ==> !IsUpperLetter(r[i])
  {
    var lowered := ToLower(email);
    var local := BeforeFirst(lowered, '@');
    var undotted := RemoveAll(local, '.');
    var r := BeforeFirst(undotted, '+');
    assert forall i :: 0 <= i < |r| ==> r[i] == undotted[i] && r[i] in local;
    r
  }

  /** Upper-case letters are the only characters that lower-casing changes. */
  lemma ToLowerFixesNonUpper(s: string)
    requires forall i :: 0 <= i < |s| ==> !IsUpperLetter(s[i])
    ensures ToLower(s) == s
  {
    assert forall i :: 0 <= i < |s| ==> ToLower(s)[i] == s[i];
  }

  /** Lower-casing distributes over concatenation. */
  lemma ToLowerConcat(a: string, b: string)
    ensures ToLower(a + b) == ToLower(a) + ToLower(b)
  {
    assert forall i :: 0 <= i < |a + b| ==> ToLower(a + b)[i] == (ToLower(a) + ToLower(b))[i];
  }

  /** Lower-casing leaves a separator that is not a letter in place. */
  lemma ToLowerAround(a: string, c: char, b: string)
    requires !IsUpperLetter(c)
    ensures ToLower(a + [c] + b) == ToLower(a) + [c] + ToLower(b)
  {
    var s := a + [c] + b;
    assert forall i :: 0 <= i < |s| ==> ToLower(s)[i] == (ToLower(a) + [c] + ToLower(b))[i];
  }

  /** A character that is not a letter occurs after lower-casing iff it occurred before. */
  lemma ToLowerKeepsSymbol(s: string, c: char)
    requires !IsUpperLetter(c) && !IsLowerLetter(c)
    ensures c in ToLower(s) <==> c in s
  {
    if c in s {
      var i :| 0 <= i < |s| && s[i] == c;
      assert ToLower(s)[i] == c;
    }
  }

  /** Removing `x` leaves a different separator in place. */
  lemma RemoveAllAround(a: string, c: char, b: string, x: char)
    requires c != x
    ensures RemoveAll(a + [c] + b, x) == RemoveAll(a, x) + [c] + RemoveAll(b, x)
  {
    RemoveAllConcat(a + [c], b, x);
    RemoveAllConcat(a, [c], x);
    assert RemoveAll([c], x) == [c] + RemoveAll([], x);
  }

  /** Splitting at the first `c` of `a + [c] + b` gives `a` when `c` does not occur in `a`. */
  lemma BeforeFirstAround(a: string, c: char, b: string)
    requires c !in a
    ensures BeforeFirst(a + [c] + b, c) == a
  {
    assert a + [c] + b == a + ([c] + b);
    BeforeFirstConcat(a, [c] + b, c);
    assert BeforeFirst([c] + b, c) == [];
  }

  /** The steps of the normalisation after the domain is cut off. */
  function NormalizeLocalPart(lowered: string): string {
    BeforeFirst(RemoveAll(lowered, '.'), '+')
  }

  /** Normalising a normalised local part changes nothing. */
  lemma NormalizeEmailIdempotent(email: string)
    ensures NormalizeEmail(NormalizeEmail(email)) == NormalizeEmail(email)
  {
    var r := NormalizeEmail(email);
    ToLowerFixesNonUpper(r);
    BeforeFirstAbsent(r, '@');
    RemoveAllAbsent(r, '.');
    BeforeFirstAbsent(r, '+');
  }

  /** With the address written as local part, '@', domain: the domain is cut off
      and the remaining steps work on the lower-cased local part alone. */
  lemma NormalizeEmailLocalPart(local: string, domain: string)
    requires '@' !in local
    ensures NormalizeEmail(local + "@" + domain) == NormalizeLocalPart(ToLower(local))
  {
    ToLowerKeepsSymbol(local, '@');
    ToLowerAround(local, '@', domain);
    BeforeFirstAround(ToLower(local), '@', ToLower(domain));
  }

  /** Only the local part matters: the domain never reaches the comparison. */
  lemma NormalizeEmailIgnoresDomain(local: string, domain1: string, domain2: string)
    requires '@' !in local
    ensures NormalizeEmail(local + "@" + domain1) == NormalizeEmail(local + "@" + domain2)
  {
    NormalizeEmailLocalPart(local, domain1);
    NormalizeEmailLocalPart(local, domain2);
  }

  /** A "+tag" suffix on the local part is ignored. */
  lemma NormalizeEmailIgnoresTag(user: string, tag: string, domain: string)
    requires '@' !in user && '+' !in user && '@' !in tag
    ensures NormalizeEmail(user + "+" + tag + "@" + domain) == NormalizeEmail(user + "@" + domain)
  {
    var tagged := user + "+" + tag;
    NormalizeEmailLocalPart(tagged, domain);
    NormalizeEmailLocalPart(user, domain);
    ToLowerAround(user, '+', tag);
    ToLowerKeepsSymbol(user, '+');
    var lu := ToLower(user);
    RemoveAllAround(lu, '+', ToLower(tag), '.');
    var ru := RemoveAll(lu, '.');
    BeforeFirstAround(ru, '+', RemoveAll(ToLower(tag), '.'));
    BeforeFirstAbsent(ru, '+');
  }

  /** Dots anywhere in the address are ignored. */
  lemma NormalizeEmailIgnoresDot(a: string, b: string)
    ensures NormalizeEmail(a + "." + b) == NormalizeEmail(a + b)
  {
    var la, lb := ToLower(a), ToLower(b);
    ToLowerAround(a, '.', b);
    ToLowerConcat(a, b);
    assert la + ['.'] + lb == la + (['.'] + lb);
    BeforeFirstConcat(la, ['.'] + lb, '@');
    BeforeFirstConcat(la, lb, '@');
    if '@' !in la {
      var lb' := BeforeFirst(lb, '@');
      assert BeforeFirst(['.'] + lb, '@') == ['.'] + lb' by {
        assert (['.'] + lb)[1..] == lb;
      }
      RemoveAllConcat(la, ['.'] + lb', '.');
      assert RemoveAll(['.'] + lb', '.') == RemoveAll(lb', '.') by {
        assert (['.'] + lb')[1..] == lb';
      }
      RemoveAllConcat(la, lb', '.');
    }
  }

  /** Lower-casing an address first does not change its normal form. */
  lemma NormalizeEmailIgnoresCase(email: string)
    ensures NormalizeEmail(ToLower(email)) == NormalizeEmail(email)
  {
    ToLowerFixesNonUpper(ToLower(email));
  }

  /** The alias pattern: "first.last+tag@domain" and "firstlast@other" share
      their normal form. */
  lemma NormalizeEmailAlias(first: string, last: string, tag: string, domain1: string, domain2: string)
    requires '@' !in first && '@' !in last && '+' !in first && '+' !in last && '@' !in tag
    ensures NormalizeEmail(first + "." + last + "+" + tag + "@" + domain1)
         == NormalizeEmail(first + last + "@" + domain2)
  {
    var rest := last + "+" + tag + "@" + domain1;
    assert first + "." + last + "+" + tag + "@" + domain1 == first + "." + rest;
    NormalizeEmailIgnoresDot(first, rest);
    assert first + rest == (first + last) + "+" + tag + "@" + domain1;
    NormalizeEmailIgnoresTag(first + last, tag, domain1);
    NormalizeEmailIgnoresDomain(first + last, domain1, domain2);
  }

  /** The alias example: a dotted, tagged, capitalised address and its plain form
      normalise to the same local part. */
  lemma AliasedEmailsNormaliseAlike(tagged: string, plain: string)
    requires tagged == "Jane.Doe+x@mail.com" && plain == "janedoe@mail.com"
    ensures NormalizeEmail(tagged) == NormalizeEmail(plain) == "janedoe"
  {
    AliasSpelling();
    NormalizeEmailAlias("Jane", "Doe", "x", "mail.com", "mail.com");
    NormalizeEmailIgnoresCase("JaneDoe@mail.com");
    PlainAddressNormalises(plain);
  }

  /** How the example addresses split into the pieces the general lemmas name. */
  lemma AliasSpelling()
    ensures "Jane.Doe+x@mail.com" == "Jane" + "." + "Doe" + "+" + "x" + "@" + "mail.com"
    ensures "Jane" + "Doe" + "@" + "mail.com" == "JaneDoe@mail.com"
    ensures ToLower("JaneDoe@mail.com") == "janedoe@mail.com"
  {
  }

  /** A local part that is already normal is returned as it is. */
  lemma NormalizeEmailOfNormalLocal(local: string, domain: string)
    requires '@' !in local && '.' !in local && '+' !in local
    requires forall i :: 0 <= i < |local| ==> !IsUpperLetter(local[i])
    ensures NormalizeEmail(local + "@" + domain) == local
  {
    NormalizeEmailLocalPart(local, domain);
    ToLowerFixesNonUpper(local);
    RemoveAllAbsent(local, '.');
    BeforeFirstAbsent(local, '+');
  }

  lemma PlainAddressNormalises(plain: string)
    requires plain == "janedoe@mail.com"
    ensures NormalizeEmail(plain) == "janedoe"
  {
    var local := "janedoe";
    assert plain == local + "@" + "mail.com";
    NormalizeEmailOfNormalLocal(local, "mail.com");
  }

  // ---------------------------------------------------------------------------
  // Street address
  // ---------------------------------------------------------------------------

  /** "St." (in any case) starts at position `i` of `t`, spelled out character by character. */
  predicate AbbreviationAt(t: string, i: int) {
    0 <= i && i + 3 <= |t| && Upper(t[i]) == 'S' && Upper(t[i + 1]) == 'T' && t[i + 2] == '.'
  }

  /** `street.Replace("St.", "Street", StringComparison.OrdinalIgnoreCase)`,
      written character by character (see ExpandStreetIsReplace). */
  function ExpandStreet(s: string): string
    decreases |s|
  {
    if AbbreviationAt(s, 0) then "Street" + ExpandStreet(s[3..])
    else if s == [] then []
    else [s[0]] + ExpandStreet(s[1..])
  }

  /** Streets match ignoring case, or exactly (case-sensitively) once every
      "St." has been expanded to "Street". */
  predicate StreetsMatch(a: string, b: string) {
    EqualsIgnoreCase(a, b) || ExpandStreet(a) == ExpandStreet(b)
  }

  lemma OccursAtAbbreviation(t: string, i: int)
    ensures OccursAt(t, "St.", i) <==> AbbreviationAt(t, i)
  {
    if 0 <= i && i + 3 <= |t| {
      var w := t[i..i + 3];
      EqualsIgnoreCaseCharwise(w, "St.");
      assert w[0] == t[i] && w[1] == t[i + 1] && w[2] == t[i + 2];
      assert Upper('S') == 'S' && Upper('t') == 'T' && Upper('.') == '.';
      assert Upper(t[i + 2]) == '.' <==> t[i + 2] == '.';
    }
  }

  /** The character-level expansion is the case-insensitive replace of "St." by "Street". */
  lemma {:induction false} ExpandStreetIsReplace(s: string)
    ensures ExpandStreet(s) == ReplaceIgnoreCase(s, "St.", "Street")
    decreases |s|
  {
    OccursAtAbbreviation(s, 0);
    if |s| >= 3 {
      assert s[0..3] == s[..3];
    }
    if AbbreviationAt(s, 0) {
      ExpandStreetIsReplace(s[3..]);
    } else if s != [] {
      ExpandStreetIsReplace(s[1..]);
    }
  }

  /** The first character of an expansion: the 'S' of "Street", or the first
      character of the input followed by the expansion of the rest. */
  lemma ExpandStreetHead(s: string)
    requires s != []
    ensures ExpandStreet(s) != []
    ensures Upper(ExpandStreet(s)[0]) != 'S' ==>
              ExpandStreet(s)[0] == s[0] && ExpandStreet(s)[1..] == ExpandStreet(s[1..])
  {
    assert Upper('S') == 'S';
  }

  /** Street match as the code states it: equal ignoring case, or equal
      (case-sensitively) after a case-insensitive replacement of "St." by "Street". */
  lemma StreetsMatchIsReplace(a: string, b: string)
    ensures StreetsMatch(a, b) <==>
      EqualsIgnoreCase(a, b) || ReplaceIgnoreCase(a, "St.", "Street") == ReplaceIgnoreCase(b, "St.", "Street")
  {
    ExpandStreetIsReplace(a);
    ExpandStreetIsReplace(b);
  }

  /** The expansion never produces "St." in any case: the text it inserts cannot
      combine with its neighbours into a new abbreviation. */
  lemma {:induction false} NoAbbreviationAfterExpansion(s: string)
    ensures forall i :: !AbbreviationAt(ExpandStreet(s), i)
    decreases |s|
  {
    var r := ExpandStreet(s);
    if s == [] {
    } else if AbbreviationAt(s, 0) {
      var t := ExpandStreet(s[3..]);
      NoAbbreviationAfterExpansion(s[3..]);
      assert r == "Street" + t;
      forall i ensures !AbbreviationAt(r, i) {
        if 6 <= i {
          assert AbbreviationAt(r, i) ==> AbbreviationAt(t, i - 6);
        }
      }
    } else {
      var t := ExpandStreet(s[1..]);
      NoAbbreviationAfterExpansion(s[1..]);
      assert r == [s[0]] + t;
      forall i ensures !AbbreviationAt(r, i) {
        if 1 <= i {
          assert AbbreviationAt(r, i) ==> AbbreviationAt(t, i - 1);
        } else if i == 0 && |t| >= 2 && Upper(t[0]) == 'T' && t[1] == '.' {
          // Neither t[0] nor t[1] starts an expansion, so they are s[1] and s[2].
          ExpandStreetHead(s[1..]);
          ExpandStreetHead(s[2..]);
          assert AbbreviationAt(r, 0) ==> AbbreviationAt(s, 0);
        }
      }
    }
  }

  /** After expansion no "St." is left, in any case. */
  lemma ExpandStreetLeavesNoAbbreviation(s: string)
    ensures !ContainsIgnoreCase(ExpandStreet(s), "St.")
  {
    NoAbbreviationAfterExpansion(s);
    var r := ExpandStreet(s);
    forall i | 0 <= i <= |r| ensures !OccursAt(r, "St.", i) {
      OccursAtAbbreviation(r, i);
    }
  }

  /** Expanding twice is the same as expanding once. */
  lemma ExpandStreetIdempotent(s: string)
    ensures ExpandStreet(ExpandStreet(s)) == ExpandStreet(s)
  {
    ExpandStreetLeavesNoAbbreviation(s);
    ReplaceWithoutOccurrence(ExpandStreet(s), "St.", "Street");
    ExpandStreetIsReplace(ExpandStreet(s));
  }

  /** The expansion of a concatenation is the concatenation of the expansions
      when no abbreviation can straddle the seam, that is when the second part
      does not begin with 't', 'T' or '.'. */
  lemma {:induction false} ExpandStreetConcat(p: string, q: string)
    requires q == [] || (Upper(q[0]) != 'T' && q[0] != '.')
    ensures ExpandStreet(p + q) == ExpandStreet(p) + ExpandStreet(q)
    decreases |p|
  {
    if p == [] {
      assert p + q == q;
    } else if AbbreviationAt(p + q, 0) {
      if |p| >= 3 {
        ExpandStreetConcat(p[3..], q);
        ExpandStreetConcatAbbreviation(p, q);
      } else {
        assert false;
      }
    } else {
      ExpandStreetConcat(p[1..], q);
      ExpandStreetConcatOther(p, q);
    }
  }

  /** One unfolding of ExpandStreet where an abbreviation starts. */
  lemma ExpandStreetAbbreviationStep(s: string)
    requires AbbreviationAt(s, 0)
    ensures ExpandStreet(s) == "Street" + ExpandStreet(s[3..])
  {
  }

  /** An abbreviation at the start of `p + q` that lies within `p` starts `p`,
      and what follows it in `p + q` is the rest of `p` followed by `q`. */
  lemma AbbreviationWithinPrefix(p: string, q: string)
    requires |p| >= 3 && AbbreviationAt(p + q, 0)
    ensures AbbreviationAt(p, 0) && (p + q)[3..] == p[3..] + q
  {
    assert (p + q)[0] == p[0] && (p + q)[1] == p[1] && (p + q)[2] == p[2];
  }

  /** One step of ExpandStreetConcat where `p` starts with "St.". */
  lemma ExpandStreetConcatAbbreviation(p: string, q: string)
    requires |p| >= 3 && AbbreviationAt(p + q, 0)
    requires ExpandStreet(p[3..] + q) == ExpandStreet(p[3..]) + ExpandStreet(q)
    ensures ExpandStreet(p + q) == ExpandStreet(p) + ExpandStreet(q)
  {
    AbbreviationWithinPrefix(p, q);
    ExpandStreetAbbreviationStep(p + q);
    ExpandStreetAbbreviationStep(p);
  }

  /** One unfolding of ExpandStreet where no abbreviation starts. */
  lemma ExpandStreetStep(s: string)
    requires s != [] && !AbbreviationAt(s, 0)
    ensures ExpandStreet(s) == [s[0]] + ExpandStreet(s[1..])
  {
  }

  /** An abbreviation at the start of `p` is also one at the start of `p + q`. */
  lemma AbbreviationAtPrefix(p: string, q: string)
    requires AbbreviationAt(p, 0)
    ensures AbbreviationAt(p + q, 0)
  {
    assert (p + q)[0] == p[0] && (p + q)[1] == p[1] && (p + q)[2] == p[2];
  }

  /** The head and tail of a concatenation whose first part is not empty. */
  lemma ConcatHeadTail(p: string, q: string)
    requires p != []
    ensures (p + q)[0] == p[0] && (p + q)[1..] == p[1..] + q
  {
  }

  /** One step of ExpandStreetConcat where `p + q` does not start with "St.". */
  lemma ExpandStreetConcatOther(p: string, q: string)
    requires p != [] && !AbbreviationAt(p + q, 0)
    requires ExpandStreet(p[1..] + q) == ExpandStreet(p[1..]) + ExpandStreet(q)
    ensures ExpandStreet(p + q) == ExpandStreet(p) + ExpandStreet(q)
  {
    if AbbreviationAt(p, 0) {
      AbbreviationAtPrefix(p, q);
    }
    ConcatHeadTail(p, q);
    ExpandStreetStep(p + q);
    ExpandStreetStep(p);
  }

  /** "St." in any case expands to "Street". */
  lemma ExpandAbbreviation(abbreviation: string)
    requires EqualsIgnoreCase(abbreviation, "St.")
    ensures ExpandStreet(abbreviation) == "Street"
  {
    EqualsIgnoreCaseCharwise(abbreviation, "St.");
    assert Upper('S') == 'S' && Upper('t') == 'T' && Upper('.') == '.';
    assert AbbreviationAt(abbreviation, 0);
    assert ExpandStreet(abbreviation) == "Street" + ExpandStreet([]);
  }

  /** "Street" is left as it is. */
  lemma ExpandFullWord()
    ensures ExpandStreet("Street") == "Street"
  {
    ExpandAbbreviation("St.");
    ExpandStreetIdempotent("St.");
  }

  /** "St." in any case matches the spelled-out "Street" after the same prefix. */
  lemma AbbreviatedStreetMatchesFullWord(prefix: string, abbreviation: string)
    requires EqualsIgnoreCase(abbreviation, "St.")
    ensures StreetsMatch(prefix + abbreviation, prefix + "Street")
    ensures StreetsMatch(prefix + "Street", prefix + abbreviation)
  {
    EqualsIgnoreCaseCharwise(abbreviation, "St.");
    assert Upper('S') == 'S';
    ExpandStreetConcat(prefix, abbreviation);
    ExpandStreetConcat(prefix, "Street");
    ExpandAbbreviation(abbreviation);
    ExpandFullWord();
  }

  /** As written, the comparison after expansion is case-sensitive: a street
      ending in "st." does not match the same street ending in "STREET". */
  lemma ExpandedStreetsCompareCaseSensitively(prefix: string)
    ensures !StreetsMatch(prefix + "st.", prefix + "STREET")
  {
    assert |ToUpper(prefix + "st.")| != |ToUpper(prefix + "STREET")|;
    ExpandStreetConcat(prefix, "st.");
    ExpandStreetConcat(prefix, "STREET");
    assert ExpandStreet("st.") == "Street" + ExpandStreet([]);
    var tail := ExpandStreet("STREET");
    assert !AbbreviationAt("STREET", 0) && !AbbreviationAt("TREET", 0);
    assert tail == "S" + ExpandStreet("TREET") && ExpandStreet("TREET")[0] == 'T';
    assert tail != "Street" by {
      assert tail[1] == 'T';
    }
    var head := ExpandStreet(prefix);
    assert (head + tail)[|head|..] == tail;
    assert (head + "Street")[|head|..] == "Street";
  }

  // ---------------------------------------------------------------------------
  // State
  // ---------------------------------------------------------------------------

  /** States match ignoring case, or when one side is exactly "NY" and the other
      upper-cases to "NEW YORK". */
  predicate StatesMatch(s1: string, s2: string) {
    || EqualsIgnoreCase(s1, s2)
    || (s1 == "NY" && ToUpper(s2) == "NEW YORK")
    || (s2 == "NY" && ToUpper(s1) == "NEW YORK")
  }

  lemma StatesMatchSymmetric(s1: string, s2: string)
    ensures StatesMatch(s1, s2) == StatesMatch(s2, s1)
  {
  }

  /** When states match other than by ignoring case, exactly one side is the literal "NY". */
  lemma StateAliasIsOneSided(s1: string, s2: string)
    requires StatesMatch(s1, s2) && !EqualsIgnoreCase(s1, s2)
    ensures (s1 == "NY") != (s2 == "NY")
    ensures s1 == "NY" ==> ToUpper(s2) == "NEW YORK"
    ensures s2 == "NY" ==> ToUpper(s1) == "NEW YORK"
  {
  }

  /** "NY" matches "New York" in any casing, from either side. */
  lemma NyMatchesNewYork(s: string)
    requires ToUpper(s) == "NEW YORK"
    ensures StatesMatch("NY", s) && StatesMatch(s, "NY")
  {
  }

  /** The "NY" alias is case-sensitive: "ny" does not match "New York". */
  lemma LowerCaseNyDoesNotMatchNewYork()
    ensures !StatesMatch("ny", "New York")
  {
    assert |ToUpper("ny")| != |ToUpper("New York")|;
    assert ("ny" != "NY");
  }

  // ---------------------------------------------------------------------------
  // The rule
  // ---------------------------------------------------------------------------

  /** Same deal, different card, and either the same email local part or the
      same street, city, state and zip code. */
  predicate AreOrdersFraudulent(order1: Purchase, order2: Purchase)
    ensures AreOrdersFraudulent(order1, order2) ==>
      order1.dealId == order2.dealId && order1.creditCardNumber != order2.creditCardNumber
  {
    var emailMatch := NormalizeEmail(order1.emailAddress) == NormalizeEmail(order2.emailAddress);
    var addressMatch := StreetsMatch(order1.streetAddress, order2.streetAddress);
    var cityMatch := EqualsIgnoreCase(order1.city, order2.city);
    var stateMatch := StatesMatch(order1.state, order2.state);
    var zipMatch := EqualsIgnoreCase(order1.zipCode, order2.zipCode);
    || (emailMatch && order1.dealId == order2.dealId && order1.creditCardNumber != order2.creditCardNumber)
    || (addressMatch && cityMatch && stateMatch && zipMatch
        && order1.dealId == order2.dealId && order1.creditCardNumber != order2.creditCardNumber)
  }

  /** The rule does not depend on the order of its arguments. */
  lemma FraudulentSymmetric(a: Purchase, b: Purchase)
    ensures AreOrdersFraudulent(a, b) == AreOrdersFraudulent(b, a)
  {
    StatesMatchSymmetric(a.state, b.state);
  }

  /** Both paths demand the same deal and different cards: a pair on the same
      card, or on different deals, is never flagged. */
  lemma FlaggedPairSharesDealNotCard(a: Purchase, b: Purchase)
    ensures AreOrdersFraudulent(a, b) ==> a.dealId == b.dealId && a.creditCardNumber != b.creditCardNumber
  {
  }

  /** No record is flagged against itself. */
  lemma NeverFraudulentWithItself(a: Purchase)
    ensures !AreOrdersFraudulent(a, a)
  {
    FlaggedPairSharesDealNotCard(a, a);
  }

  /** The two paths, each sufficient on its own given the deal and card guards. */
  lemma FraudulentPaths(a: Purchase, b: Purchase)
    requires a.dealId == b.dealId && a.creditCardNumber != b.creditCardNumber
    ensures NormalizeEmail(a.emailAddress) == NormalizeEmail(b.emailAddress) ==> AreOrdersFraudulent(a, b)
    ensures StreetsMatch(a.streetAddress, b.streetAddress) && EqualsIgnoreCase(a.city, b.city)
            && StatesMatch(a.state, b.state) && EqualsIgnoreCase(a.zipCode, b.zipCode)
            ==> AreOrdersFraudulent(a, b)
  {
  }

  /** Email alias example: "Jane.Doe+x@mail.com" and "janedoe@mail.com" on the
      same deal with different cards are flagged. */
  lemma EmailAliasPairFlagged(a: Purchase, b: Purchase)
    requires a.emailAddress == "Jane.Doe+x@mail.com" && b.emailAddress == "janedoe@mail.com"
    requires a.dealId == b.dealId && a.creditCardNumber != b.creditCardNumber
    ensures AreOrdersFraudulent(a, b)
  {
    AliasedEmailsNormaliseAlike(a.emailAddress, b.emailAddress);
  }

  /** Address example: "NY" against any casing of "New York", a street ending
      in "St." against the same street ending in "Street", city and zip equal
      up to case, same deal, different cards. */
  lemma AddressAliasPairFlagged(a: Purchase, b: Purchase, street: string)
    requires a.streetAddress == street + "St." && b.streetAddress == street + "Street"
    requires a.state == "NY" && ToUpper(b.state) == "NEW YORK"
    requires EqualsIgnoreCase(a.city, b.city) && EqualsIgnoreCase(a.zipCode, b.zipCode)
    requires a.dealId == b.dealId && a.creditCardNumber != b.creditCardNumber
    ensures AreOrdersFraudulent(a, b)
  {
    AbbreviatedStreetMatchesFullWord(street, "St.");
    NyMatchesNewYork(b.state);
    FraudulentPaths(a, b);
  }

  /** Same-card example: a pair that matches on every field except that it pays
      with one card is not flagged. */
  lemma SameCardPairNotFlagged(a: Purchase, b: Purchase)
    requires a.creditCardNumber == b.creditCardNumber
    ensures !AreOrdersFraudulent(a, b)
  {
    FlaggedPairSharesDealNotCard(a, b);
  }
}

=== FILE: sequences.dfy ===
/**
 * The two LINQ operators the controller applies to its result list:
 * `Distinct`, which keeps the first occurrence of each element, and
 * `OrderBy(key)`, a stable ascending sort.
 */
module Sequences {

  predicate NoDuplicates<T(==)>(s: seq<T>) {
    forall i, j :: 0 <= i < j < |s| ==> s[i] != s[j]
  }

  /** `Distinct()`: the elements of `s`, each once, in order of first occurrence. */
  function Distinct<T(==,!new)>(s: seq<T>): (r: seq<T>)
    ensures NoDuplicates(r)
    ensures forall x :: x in r <==> x in s
  {
    if s == [] then []
    else
      var init, last := s[..|s| - 1], s[|s| - 1];
      assert s == init + [last];
      var r' := Distinct(init);
      if last in r' then r' else r' + [last]
  }

  /** A sequence without duplicates is its own `Distinct()`. */
  lemma {:induction false} DistinctOfDistinct<T(!new)>(s: seq<T>)
    requires NoDuplicates(s)
    ensures Distinct(s) == s
  {
    if s != [] {
      var init := s[..|s| - 1];
      DistinctOfDistinct(init);
      assert s[|s| - 1] !in init;
      assert init + [s[|s| - 1]] == s;
    }
  }

  /** Extending the input only appends to the result: what `Distinct()` keeps
      from a prefix stays in front, in place. With the membership ensures this
      says that each element sits where its first occurrence puts it. */
  lemma {:induction false} DistinctExtends<T(!new)>(s: seq<T>, t: seq<T>)
    ensures Distinct(s) <= Distinct(s + t)
    decreases |t|
  {
    if t == [] {
      assert s + t == s;
    } else {
      var t' := t[..|t| - 1];
      DistinctExtends(s, t');
      assert (s + t)[..|s + t| - 1] == s + t';
    }
  }

  /** Having no duplicates means every element has multiplicity at most one. */
  lemma {:induction false} NoDuplicatesMultiset<T>(s: seq<T>)
    ensures NoDuplicates(s) <==> forall x :: multiset(s)[x] <= 1
  {
    if s != [] {
      var init, last := s[..|s| - 1], s[|s| - 1];
      assert s == init + [last];
      NoDuplicatesMultiset(init);
      if NoDuplicates(s) {
        forall i | 0 <= i < |init| ensures init[i] != last {
          assert init[i] == s[i];
        }
        assert NoDuplicates(init) by {
          forall i, j | 0 <= i < j < |init| ensures init[i] != init[j] {
            assert init[i] == s[i] && init[j] == s[j];
          }
        }
      } else {
        var i, j :| 0 <= i < j < |s| && s[i] == s[j];
        if j == |s| - 1 {
          assert s[i] in init;
          assert multiset(s)[last] == multiset(init)[last] + 1;
        } else {
          assert init[i] == init[j];
          assert !NoDuplicates(init);
          var x :| multiset(init)[x] > 1;
          assert multiset(s)[x] >= multiset(init)[x];
        }
      }
    }
  }

  /** Rearranging a sequence neither creates nor removes duplicates. */
  lemma NoDuplicatesPermutation<T>(a: seq<T>, b: seq<T>)
    requires multiset(a) == multiset(b) && NoDuplicates(a)
    ensures NoDuplicates(b)
  {
    NoDuplicatesMultiset(a);
    NoDuplicatesMultiset(b);
  }

  // ---------------------------------------------------------------------------
  // Stable sorting by an integer key
  // ---------------------------------------------------------------------------

  predicate SortedBy<T>(s: seq<T>, key: T -> int) {
    forall i, j :: 0 <= i < j < |s| ==> key(s[i]) <= key(s[j])
  }

  /** The elements of `s` whose key is `k`, in their order in `s`. */
  function WithKey<T>(s: seq<T>, key: T -> int, k: int): seq<T> {
    if s == [] then []
    else WithKey(s[..|s| - 1], key, k) + (if key(s[|s| - 1]) == k then [s[|s| - 1]] else [])
  }

  lemma {:induction false} WithKeyConcat<T>(a: seq<T>, b: seq<T>, key: T -> int, k: int)
    ensures WithKey(a + b, key, k) == WithKey(a, key, k) + WithKey(b, key, k)
    decreases |b|
  {
    if b == [] {
      assert a + b == a;
    } else {
      var b', y := b[..|b| - 1], b[|b| - 1];
      assert (a + b)[..|a + b| - 1] == a + b';
      WithKeyConcat(a, b', key, k);
    }
  }

  lemma {:induction false} WithKeyMembers<T>(s: seq<T>, key: T -> int, k: int)
    ensures forall x :: x in WithKey(s, key, k) <==> x in s && key(x) == k
  {
    if s != [] {
      var init := s[..|s| - 1];
      WithKeyMembers(init, key, k);
      assert s == init + [s[|s| - 1]];
    }
  }

  /** Every element of a list without key `k` contributes nothing to `WithKey(_, _, k)`. */
  lemma {:induction false} WithKeyNone<T>(s: seq<T>, key: T -> int, k: int)
    requires forall i :: 0 <= i < |s| ==> key(s[i]) != k
    ensures WithKey(s, key, k) == []
  {
    if s != [] {
      WithKeyNone(s[..|s| - 1], key, k);
    }
  }

  /** Where `x` goes: scanning `s` from the back, in front of the elements whose
      key is larger than `x`'s and behind the first one whose key is not. */
  function InsertionPoint<T>(x: T, s: seq<T>, key: T -> int): (p: nat)
    ensures p <= |s|
    ensures p > 0 ==> key(s[p - 1]) <= key(x)
    ensures forall i :: p <= i < |s| ==> key(x) < key(s[i])
  {
    if s == [] || key(s[|s| - 1]) <= key(x) then |s|
    else InsertionPoint(x, s[..|s| - 1], key)
  }

  /** `x` inserted at its insertion point. */
  function Insert<T>(x: T, s: seq<T>, key: T -> int): seq<T> {
    var p := InsertionPoint(x, s, key);
    s[..p] + [x] + s[p..]
  }

  /** Two sorted sequences, every key of the first at most every key of the
      second, concatenate to a sorted sequence. */
  lemma SortedConcat<T>(a: seq<T>, b: seq<T>, key: T -> int)
    requires SortedBy(a, key) && SortedBy(b, key)
    requires forall i, j :: 0 <= i < |a| && 0 <= j < |b| ==> key(a[i]) <= key(b[j])
    ensures SortedBy(a + b, key)
  {
    var c := a + b;
    forall i, j | 0 <= i < j < |c| ensures key(c[i]) <= key(c[j]) {
      if j < |a| {
        assert c[i] == a[i] && c[j] == a[j];
      } else if i < |a| {
        assert c[i] == a[i] && c[j] == b[j - |a|];
      } else {
        assert c[i] == b[i - |a|] && c[j] == b[j - |a|];
      }
    }
  }

  /** Inserting into a sorted sequence keeps it sorted. */
  lemma InsertSorted<T>(x: T, s: seq<T>, key: T -> int)
    requires SortedBy(s, key)
    ensures SortedBy(Insert(x, s, key), key)
  {
    var p := InsertionPoint(x, s, key);
    var pre, post := s[..p], s[p..];
    assert SortedBy(pre, key) by {
      forall i, j | 0 <= i < j < |pre| ensures key(pre[i]) <= key(pre[j]) {
        assert pre[i] == s[i] && pre[j] == s[j];
      }
    }
    assert SortedBy(post, key) by {
      forall i, j | 0 <= i < j < |post| ensures key(post[i]) <= key(post[j]) {
        assert post[i] == s[p + i] && post[j] == s[p + j];
      }
    }
    assert SortedBy(pre + [x], key) by {
      forall i, j | 0 <= i < |pre| && 0 <= j < 1 ensures key(pre[i]) <= key([x][j]) {
        assert i == p - 1 || key(s[i]) <= key(s[p - 1]);
      }
      SortedConcat(pre, [x], key);
    }
    assert SortedBy(pre + [x] + post, key) by {
      var front := pre + [x];
      forall i, j | 0 <= i < |front| && 0 <= j < |post| ensures key(front[i]) <= key(post[j]) {
        if i < p {
          assert front[i] == s[i] && post[j] == s[p + j];
        } else {
          assert front[i] == x && post[j] == s[p + j];
        }
      }
      SortedConcat(front, post, key);
    }
  }

  /** Inserting adds exactly `x`. */
  lemma InsertPermutation<T>(x: T, s: seq<T>, key: T -> int)
    ensures multiset(Insert(x, s, key)) == multiset(s) + multiset{x}
  {
    var p := InsertionPoint(x, s, key);
    assert s == s[..p] + s[p..];
  }

  /** Placing `x` between two parts adds it behind the elements of its key
      when no later element shares that key. */
  lemma WithKeyAround<T>(pre: seq<T>, x: T, post: seq<T>, key: T -> int, k: int)
    requires WithKey(post, key, key(x)) == []
    ensures WithKey(pre + [x] + post, key, k) == WithKey(pre + post, key, k) + WithKey([x], key, k)
  {
    WithKeyConcat(pre + [x], post, key, k);
    WithKeyConcat(pre, [x], key, k);
    WithKeyConcat(pre, post, key, k);
    var wp, wx, wq := WithKey(pre, key, k), WithKey([x], key, k), WithKey(post, key, k);
    if key(x) == k {
      calc {
        WithKey(pre + [x] + post, key, k);
        wp + wx + wq;
        wp + wx;
        (wp + wq) + wx;
      }
    } else {
      WithKeyNone([x], key, k);
      calc {
        WithKey(pre + [x] + post, key, k);
        wp + wx + wq;
        wp + wq;
        (wp + wq) + wx;
      }
    }
  }

  /** Inserting puts `x` behind the elements already carrying its key. */
  lemma InsertWithKey<T>(x: T, s: seq<T>, key: T -> int, k: int)
    ensures WithKey(Insert(x, s, key), key, k) == WithKey(s, key, k) + WithKey([x], key, k)
  {
    var p := InsertionPoint(x, s, key);
    WithKeyNone(s[p..], key, key(x));
    WithKeyAround(s[..p], x, s[p..], key, k);
    assert s[..p] + s[p..] == s;
  }

  /** `OrderBy(key)`: insertion sort, each element inserted behind the earlier
      ones with the same key. */
  function SortBy<T>(s: seq<T>, key: T -> int): seq<T> {
    if s == [] then []
    else Insert(s[|s| - 1], SortBy(s[..|s| - 1], key), key)
  }

  /** `OrderBy` sorts ascending by key. */
  lemma {:induction false} SortBySorted<T>(s: seq<T>, key: T -> int)
    ensures SortedBy(SortBy(s, key), key)
  {
    if s != [] {
      SortBySorted(s[..|s| - 1], key);
      InsertSorted(s[|s| - 1], SortBy(s[..|s| - 1], key), key);
    }
  }

  /** `OrderBy` rearranges its input: nothing is added or lost. */
  lemma {:induction false} SortByPermutation<T>(s: seq<T>, key: T -> int)
    ensures multiset(SortBy(s, key)) == multiset(s)
  {
    if s != [] {
      var init, last := s[..|s| - 1], s[|s| - 1];
      SortByPermutation(init, key);
      InsertPermutation(last, SortBy(init, key), key);
      assert s == init + [last];
    }
  }

  /** `OrderBy` is stable: for every key, the elements carrying it keep their
      relative order. */
  lemma {:induction false} SortByStable<T>(s: seq<T>, key: T -> int, k: int)
    ensures WithKey(SortBy(s, key), key, k) == WithKey(s, key, k)
  {
    if s != [] {
      var init, last := s[..|s| - 1], s[|s| - 1];
      SortByStable(init, key, k);
      InsertWithKey(last, SortBy(init, key), key, k);
      WithKeyConcat(init, [last], key, k);
      assert s == init + [last];
    }
  }

  /** Any sorted rearrangement that keeps the order within each key is `SortBy`'s
      result: a stable sort has only one possible outcome. */
  lemma SortByUnique<T>(s: seq<T>, r: seq<T>, key: T -> int)
    requires SortedBy(r, key)
    requires forall k :: WithKey(r, key, k) == WithKey(s, key, k)
    ensures r == SortBy(s, key)
  {
    forall k ensures WithKey(r, key, k) == WithKey(SortBy(s, key), key, k) {
      SortByStable(s, key, k);
    }
    SortBySorted(s, key);
    StableSortUnique(r, SortBy(s, key), key);
  }

  /** Two elements are swapped exactly when the second has the smaller key. */
  lemma SortTwo<T>(x: T, y: T, key: T -> int)
    ensures SortBy([x, y], key) == if key(y) < key(x) then [y, x] else [x, y]
  {
    assert SortBy([x], key) == [x] by {
      assert [x][..0] == [];
    }
    assert [x, y][..1] == [x];
    if key(y) < key(x) {
      assert InsertionPoint(y, [x], key) == 0;
      assert [x][..0] + [y] + [x][0..] == [y, x];
    } else {
      assert [x][..1] + [y] + [x][1..] == [x, y];
    }
  }

  /** Dropping the last element drops it from the elements of its key, if it has that key. */
  lemma WithKeyDropLast<T>(s: seq<T>, key: T -> int, k: int)
    requires s != []
    ensures var w := WithKey(s, key, k);
      WithKey(s[..|s| - 1], key, k) == if key(s[|s| - 1]) == k then w[..|w| - 1] else w
  {
  }

  /** In a sorted sequence the last element carries the largest key. */
  lemma LastKeyIsLargest<T>(s: seq<T>, key: T -> int, x: T)
    requires SortedBy(s, key) && x in s
    ensures key(x) <= key(s[|s| - 1])
  {
    var i :| 0 <= i < |s| && s[i] == x;
    assert i == |s| - 1 || key(s[i]) <= key(s[|s| - 1]);
  }

  /** Two sorted sequences with the same elements per key end with the same key. */
  lemma LastKeysAgree<T>(a: seq<T>, b: seq<T>, key: T -> int)
    requires SortedBy(a, key) && SortedBy(b, key) && a != [] && b != []
    requires forall k :: WithKey(a, key, k) == WithKey(b, key, k)
    ensures key(a[|a| - 1]) == key(b[|b| - 1])
  {
    var la, lb := a[|a| - 1], b[|b| - 1];
    WithKeyMembers(a, key, key(la));
    WithKeyMembers(b, key, key(la));
    WithKeyMembers(a, key, key(lb));
    WithKeyMembers(b, key, key(lb));
    assert WithKey(a, key, key(la)) == WithKey(b, key, key(la));
    assert WithKey(a, key, key(lb)) == WithKey(b, key, key(lb));
    LastKeyIsLargest(b, key, la);
    LastKeyIsLargest(a, key, lb);
  }

  /** A sorted sequence is fixed by its elements per key: two sorted sequences
      that agree on the elements of every key, in order, are equal. */
  lemma {:induction false} StableSortUnique<T>(a: seq<T>, b: seq<T>, key: T -> int)
    requires SortedBy(a, key) && SortedBy(b, key)
    requires forall k :: WithKey(a, key, k) == WithKey(b, key, k)
    ensures a == b
    decreases |a|
  {
    if a == [] || b == [] {
      if a != [] || b != [] {
        var c := if a != [] then a else b;
        var y := c[|c| - 1];
        WithKeyMembers(c, key, key(y));
      }
    } else {
      var a', la := a[..|a| - 1], a[|a| - 1];
      var b', lb := b[..|b| - 1], b[|b| - 1];
      LastKeysAgree(a, b, key);
      var ka := key(la);
      var wa, wb := WithKey(a, key, ka), WithKey(b, key, ka);
      assert wa == wb;
      assert la == wa[|wa| - 1] == wb[|wb| - 1] == lb by {
        assert wa == WithKey(a', key, ka) + [la];
        assert wb == WithKey(b', key, ka) + [lb];
      }
      forall k ensures WithKey(a', key, k) == WithKey(b', key, k) {
        assert WithKey(a, key, k) == WithKey(b, key, k);
        WithKeyDropLast(a, key, k);
        WithKeyDropLast(b, key, k);
      }
      StableSortUnique(a', b', key);
      assert a == a' + [la] && b == b' + [lb];
    }
  }
}

=== FILE: text.dfy ===
/**
 * The handful of .NET string operations the fraud rule uses, over ASCII.
 *
 * `ToLowerInvariant`, `ToUpperInvariant` and `StringComparison.OrdinalIgnoreCase`
 * are modelled by an ASCII case mapping: letters 'A'..'Z' and 'a'..'z' change
 * case, every other character is left alone.
 */
module Text {

  predicate IsUpperLetter(c: char) { 'A' <= c <= 'Z' }

  predicate IsLowerLetter(c: char) { 'a' <= c <= 'z' }

  /** `char.ToLowerInvariant`, restricted to ASCII. */
  function Lower(c: char): char {
    if IsUpperLetter(c) then (c as int + 32) as char else c
  }

  /** `char.ToUpperInvariant`, restricted to ASCII. */
  function Upper(c: char): char {
    if IsLowerLetter(c) then (c as int - 32) as char else c
  }

  /** `string.ToLowerInvariant`: the result has no upper-case letter and
      differs from the input only in the case of its letters. */
  function ToLower(s: string): (r: string)
    ensures |r| == |s|
    ensures forall i :: 0 <= i < |r| ==> !IsUpperLetter(r[i]) && Upper(r[i]) == Upper(s[i])
  {
    seq(|s|, i requires 0 <= i < |s| => Lower(s[i]))
  }

  /** `string.ToUpperInvariant`: the result has no lower-case letter and
      differs from the input only in the case of its letters. */
  function ToUpper(s: string): (r: string)
    ensures |r| == |s|
    ensures forall i :: 0 <= i < |r| ==> !IsLowerLetter(r[i]) && Lower(r[i]) == Lower(s[i])
  {
    seq(|s|, i requires 0 <= i < |s| => Upper(s[i]))
  }

  /** `a.Equals(b, StringComparison.OrdinalIgnoreCase)`: equal after upper-casing. */
  predicate EqualsIgnoreCase(a: string, b: string)
    ensures EqualsIgnoreCase(a, b) ==> |a| == |b|
  {
    ToUpper(a) == ToUpper(b)
  }

  /** Ignoring case is the same as comparing character by character, up to case. */
  lemma EqualsIgnoreCaseCharwise(a: string, b: string)
    ensures EqualsIgnoreCase(a, b) <==> |a| == |b| && forall i :: 0 <= i < |a| ==> Upper(a[i]) == Upper(b[i])
  {
    if |a| == |b| && forall i :: 0 <= i < |a| ==> Upper(a[i]) == Upper(b[i]) {
      assert forall i :: 0 <= i < |a| ==> ToUpper(a)[i] == ToUpper(b)[i];
    }
  }

  /** `s.Split(c)[0]`: the longest prefix of `s` free of `c` (all of `s` when `c`
      does not occur; .NET's Split never fails here). */
  function BeforeFirst(s: string, c: char): (r: string)
    ensures c !in r
    ensures r <= s
    ensures |r| == |s| || s[|r|] == c
  {
    if s == [] then []
    else if s[0] == c then []
    else [s[0]] + BeforeFirst(s[1..], c)
  }

  /** Splitting at a character that does not occur keeps the whole string. */
  lemma BeforeFirstAbsent(s: string, c: char)
    requires c !in s
    ensures BeforeFirst(s, c) == s
  {
  }

  /** Splitting a concatenation at `c`: the cut falls in the first part iff `c` occurs there. */
  lemma {:induction false} BeforeFirstConcat(a: string, b: string, c: char)
    ensures c in a ==> BeforeFirst(a + b, c) == BeforeFirst(a, c)
    ensures c !in a ==> BeforeFirst(a + b, c) == a + BeforeFirst(b, c)
  {
    if a != [] {
      assert (a + b)[0] == a[0];
      assert (a + b)[1..] == a[1..] + b;
      BeforeFirstConcat(a[1..], b, c);
      if a[0] != c {
        assert c in a ==> c in a[1..];
      }
    } else {
      assert a + b == b;
    }
  }

  /** `s.Replace(c.ToString(), "")`: every `c` removed, nothing else touched. */
  function RemoveAll(s: string, c: char): (r: string)
    ensures forall x :: x in r <==> x in s && x != c
    ensures |r| <= |s|
  {
    if s == [] then []
    else
      assert s == [s[0]] + s[1..];
      if s[0] == c then RemoveAll(s[1..], c)
      else [s[0]] + RemoveAll(s[1..], c)
  }

  /** Removing a character distributes over concatenation. */
  lemma {:induction false} RemoveAllConcat(a: string, b: string, c: char)
    ensures RemoveAll(a + b, c) == RemoveAll(a, c) + RemoveAll(b, c)
  {
    if a == [] {
      assert a + b == b;
    } else {
      assert (a + b)[0] == a[0];
      assert (a + b)[1..] == a[1..] + b;
      RemoveAllConcat(a[1..], b, c);
    }
  }

  /** Removing a character that does not occur changes nothing. */
  lemma {:induction false} RemoveAllAbsent(s: string, c: char)
    requires c !in s
    ensures RemoveAll(s, c) == s
  {
    if s != [] {
      assert c !in s[1..];
      RemoveAllAbsent(s[1..], c);
    }
  }

  /** `pattern` occurs at position `i` of `s`, ignoring case. */
  predicate OccursAt(s: string, pattern: string, i: int) {
    0 <= i && i + |pattern| <= |s| && EqualsIgnoreCase(s[i..i + |pattern|], pattern)
  }

  predicate ContainsIgnoreCase(s: string, pattern: string) {
    exists i | 0 <= i <= |s| :: OccursAt(s, pattern, i)
  }

  /** `s.Replace(pattern, replacement, StringComparison.OrdinalIgnoreCase)`:
      scan left to right; each occurrence of `pattern` (ignoring case) is replaced,
      and scanning resumes after it, so replacement text is never rescanned.
      .NET rejects an empty pattern. */
  function ReplaceIgnoreCase(s: string, pattern: string, replacement: string): string
    requires |pattern| > 0
    decreases |s|
  {
    if |s| >= |pattern| && EqualsIgnoreCase(s[..|pattern|], pattern) then
      replacement + ReplaceIgnoreCase(s[|pattern|..], pattern, replacement)
    else if s == [] then []
    else [s[0]] + ReplaceIgnoreCase(s[1..], pattern, replacement)
  }

  /** Replacing a pattern that does not occur leaves the string unchanged. */
  lemma {:induction false} ReplaceWithoutOccurrence(s: string, pattern: string, replacement: string)
    requires |pattern| > 0
    requires !ContainsIgnoreCase(s, pattern)
    ensures ReplaceIgnoreCase(s, pattern, replacement) == s
  {
    assert !OccursAt(s, pattern, 0);
    if |s| >= |pattern| {
      assert s[0..|pattern|] == s[..|pattern|];
    }
    if s != [] {
      forall i | OccursAt(s[1..], pattern, i) ensures false {
        assert s[1..][i..i + |pattern|] == s[i + 1..i + 1 + |pattern|];
        assert OccursAt(s, pattern, i + 1);
      }
      ReplaceWithoutOccurrence(s[1..], pattern, replacement);
    }
  }
}
